=== FILE: README.md ===
# Flat-file record store, modelled in Dafny

Mediashare/database keeps each "database" in its own YAML file. The file
holds a configuration block (an encryption flag and the inferred field
model) and an ordered list of rows. Two PHP traits form the core:

- `Database` (src/Database.php) resolves a database name to a file and
  loads, creates, persists and deletes whole documents. Persisting
  re-derives the field model. It also moves the file when the encryption
  flag changes: the old file is removed only after the new one has been
  written somewhere else.
- `DatabaseQuery` (src/DatabaseQuery.php) reads all rows, filters or
  transforms them in memory, and persists the whole document again
  (`insert`, `update`, `remove`, `findOneBy`, `findBy`).

The model is functional:

- A PHP array with string keys is an ordered association list (`Assoc`).
  Assigning to an existing key overwrites it in place; assigning to a new
  key appends it.
- `Store.Fs` is the configured database directory together with the
  sequence of `(path, content)` entries the adapter can see.
  - Their order is the order in which the adapter discovers the files.
  - `files()` keeps the entries that lie directly inside the trimmed
    directory and have a database extension (`Store.Scanned`), as the glob
    of `*` in that directory does; a file in a subdirectory is not listed.
  - `Content` says what the read adapter and the YAML decoder make of a
    file: unreadable, empty, a null payload, or a decoded document.
- Three collaborators are parameters, not models:
  - the write adapter, `Env.write`;
  - the row-key extractor `Table::getAllKeys`, `Env.keys`;
  - PHP's `empty()` and loose `==`, `Query.Juggling`.
- Every mutating operation returns an `Outcome`: the PHP boolean, the
  directory afterwards, a log of the adapter calls in order (writes with
  their results, removals), and whether the call raised a `TypeError`
  instead of returning. This lets the contracts state the
  write-before-remove ordering.

Modules: `Wrappers` (Option), `Seqs` (first match), `Assoc`, `Values`
(values, rows, parameter patching), `Paths` (`rtrim`, `pathinfo`,
`str_replace`), `Schema` (documents and model inference), `Store`
(src/Database.php) and `Query` (src/DatabaseQuery.php).

Points where the code behaves differently from what its method names and
docblocks suggest, and which the model follows:

- Filters are not conjunctions.
  - `findBy` keeps a row when any where-clause matches it.
  - `remove` deletes a row when any clause matches it.
  - `findOneBy` resets its flag at every clause, so the last clause alone
    decides.
  - `Query.FiltersDisagreeOnTwoClauses` exhibits a two-clause filter on
    which `findBy` and `findOneBy` part ways.
- At src/Database.php:101, `!==` binds tighter than `??`. The stored flag
  is therefore compared without a default: a stored document with no
  `encrypted` entry counts as different from any target, and its file is
  retired whenever the write lands elsewhere. `Store.Persist` encodes this
  as `StoredConfig(fs, name).encrypted != Some(target)`.
- `findBy` and `findOneBy` first read `rows($db_name)` and then only
  filter. `Query.FindBy` and `Query.FindOneBy` take that row sequence
  (`Store.Rows(fs, name)`) as their input.
- `update` and `remove` on a name that does not resolve do not fail. They
  persist an empty row list, and `persist` creates the database first.
- `create` is declared to return `bool` but returns the write adapter's
  result (src/Database.php:68, 77). A failed creation write returns null,
  which raises a `TypeError`. So `create` does not return false there.
  Instead `create` aborts, and with it the `persist` or `insert` that
  called it, before any further adapter call. `Outcome.raised` records
  this.

## Model

| member | source | states |
|---|---|---|
| Schema.InferModel | src/Database.php:87-93 | the stored model is the field names returned for the rows, each once, in order of first appearance (row by row, then within a row); a name is in it exactly when some row yields it |
| Schema.AddKeysIsFirstOccurrences | src/Database.php:88-92 | the inner loop (append a key unless already present), started from the first occurrences of a prefix, yields the first occurrences of the prefix followed by the row's keys |
| Schema.AddRowsIsFirstOccurrences | src/Database.php:87-93 | the nested loops over rows and keys compute the first occurrences of all keys of all rows in order |
| Schema.InferModelOrdered | src/Database.php:87-92 | of two model entries, the earlier one first appears earlier in the row-by-row key sequence |
| Schema.FirstOccurrencesOrdered | src/Database.php:87-92 | deduplication keeps the order of first occurrence |
| Schema.Prepare | src/Database.php:87-97 | the document handed to the writer keeps the rows, keeps a present encryption flag or sets it to false, and carries a duplicate-free model holding exactly the keys of the rows |
| Schema.PrepareIgnoresModel | src/Database.php:87-96 | whatever model the caller supplies, the prepared document is the same |
| Values.PatchLookup | src/DatabaseQuery.php:37-39 | after assigning the parameters to a row, a parameter key holds the parameter's value and every other field keeps its value (absent fields stay absent) |
| Values.PatchKeepsFieldOrder | src/DatabaseQuery.php:37-39 | assigning parameters keeps every existing field in place, in its order |
| Assoc.Put | src/DatabaseQuery.php:38 | `$row[$key] = $value` makes the key hold the value, leaves every other key's value alone, keeps the key order and appends a new key at the end |
| Paths.TrimRight | src/Database.php:73 | `rtrim` with one character yields a prefix that does not end in it, having dropped only that character |
| Paths.SplitExtension | src/Database.php:73-74 | for `dir/stem.ext`, pathinfo's filename is `stem` and its extension is `ext` |
| Store.Root | src/Database.php:149 | the directory the scan looks into is the configured one with its trailing `*`s stripped, then with its trailing `/`s stripped: a prefix of the `*`-trimmed directory that does not end in `/`, followed there only by `/`s |
| Store.DiscoverSpec | src/Database.php:148-151 | a path is listed exactly when the adapter sees it, it lies directly inside the trimmed directory (one level, no subdirectory) and its extension is `yaml`, `yml` or `encrypted` |
| Store.Files | src/Database.php:148-151 | every listed path is a file the adapter sees, directly inside the trimmed configured directory, with extension `yaml`, `yml` or `encrypted` |
| Store.ResolveSpec | src/Database.php:158-169 | a name resolves to the first discovered path whose filename is the name, name.yaml or name.yml; no such path (an empty directory included) gives null |
| Store.File | src/Database.php:158-169 | a returned path is a discovered file whose filename is the name, name.yaml or name.yml |
| Store.Get | src/Database.php:48-59 | null exactly when the name does not resolve; a stored document as stored; an empty payload as `[]` (no config, no rows); an unreadable file or null payload as the default document with the flag false, no model and no rows |
| Store.Rows | src/Database.php:40-42 | the rows of the stored document; none for an unresolved name, an empty or null payload or an unreadable file |
| Store.StoredConfig | src/Database.php:22-24 | the stored configuration; an empty one for an unresolved name or an empty payload; flag false and no model for an unreadable file or a null payload |
| Store.FileSpec | src/Database.php:158-169 | `file` returns a discovered database file that stands for the name, and null exactly when no discovered file does |
| Store.CreationPathResolves | src/Database.php:73-74 | the creation path of a slash-free name lies directly inside the trimmed directory with a database extension, so the scan finds it, and it resolves back to the name; and its extension is `encrypted` exactly when encryption was asked for, `yaml` otherwise |
| Store.Create | src/Database.php:68-78 | a name that already resolves gives false and no adapter call; otherwise exactly one write, of the given model and no rows, to the trimmed directory + `/` + name + `.yaml` (+ `.encrypted`), whose result is the adapter's; true exactly when the adapter returns a path, and a `TypeError` (raised) exactly when it returns null |
| Store.CreateReadsBack | src/Database.php:68-78 | after creating an unresolved name, `get` yields the skeleton just written (given flag and model, no rows) or, when the name still resolves nowhere, null |
| Store.Replace | src/Database.php:105-115 | the write over the old path is the last write; the result is true exactly when it returned a path, which then holds the document; a removal follows exactly when retirement was decided and the write landed on a different path, and it removes the old path |
| Store.Persist | src/Database.php:86-116 | a `TypeError` only when the name did not resolve, and then nothing changed; otherwise the last write carries the prepared document and the target flag, its result is the adapter's, it goes over the resolved file when the name resolved, and the result is true exactly when it returned a path, which then holds the prepared document; a failed persist takes no file away; a name that resolves gets no creation write: the main write is the first call, followed at most by the removal |
| Store.PersistCreatesFirst | src/Database.php:99-109 | for a name that does not resolve, the creation write comes first: to the target flag's creation path, of the skeleton with that flag, the inferred model and no rows, with the adapter's result; if it returned null the call raises with nothing else done; otherwise the prepared document is written second, over `file($db_name) ?? $db_name` as it stands after the creation, and nothing is removed |
| Store.PersistWritesOverCreated | src/Database.php:99-109 | for a slash-free name whose creation write lands on the creation path, the document is then written over that file |
| Store.PersistRetirement | src/Database.php:99-113 | the old file is removed exactly when the name resolved, its stored flag differs from the target, the write returned a path and that path differs from the old file; the removal takes exactly the old file |
| Store.PersistRemovesLast | src/Database.php:111-113 | any removal is the last adapter call and directly follows a successful write over the removed path that returned a different path |
| Store.PersistFrame | src/Database.php:99-113 | a path whose content changes is one a write of the call returned or its removal named: every other database keeps its file |
| Store.PersistKeepsACopy | src/Database.php:105-113 | after persisting a resolving name, the old file is still there or the returned path holds the new document |
| Store.PersistRoundTrip | src/Database.php:105-115 | when the name resolves to the path the write returned, `get` yields the prepared document and the rows exactly as given |
| Store.DeleteDatabase | src/Database.php:123-128 | true exactly when the name resolves; then exactly its file is removed and every other path keeps its content; otherwise nothing happens |
| Store.DeleteUnresolves | src/Database.php:123-128 | when only one file stands for the name, the name no longer resolves after `delete` |
| Store.ListNameAsWritten | src/Database.php:136-138 | `str_replace` never lengthens the filename and leaves it unchanged when it contains neither `.yaml` nor `.yml` |
| Store.ListAsWritten | src/Database.php:134-142 | one name per discovered file, in discovery order, each the filename with every `.yaml` and then every `.yml` deleted |
| Store.ListAsWrittenLosesName | src/Database.php:136-138 | in the directory `db`, the file `db/a.yamlb.yml` is listed as `ab`, a name that does not resolve |
| Store.ListName | src/Database.php:136-138 | the corrected name stands for its file (filename is the name, name.yaml or name.yml) |
| Store.List | src/Database.php:134-142 | one name per discovered file, in discovery order; each name stands for its file and resolves |
| Query.Found | src/DatabaseQuery.php:128 | no selected rows give null, never an empty list |
| Query.ExcludedByAny | src/DatabaseQuery.php:113-121 | a row is excluded exactly when clauses exist and none matches |
| Query.ExcludedByLast | src/DatabaseQuery.php:86-94 | a row is excluded exactly when clauses exist and the last one does not match |
| Query.KeepRows | src/DatabaseQuery.php:56-69 | the loop keeps exactly the rows no clause matches, in document order |
| Query.PatchRow | src/DatabaseQuery.php:37-39 | the parameter loop assigns every parameter to the row |
| Query.PatchRows | src/DatabaseQuery.php:36-41 | one patched row per found row, in order |
| Query.FindBy | src/DatabaseQuery.php:111-129 | the rows with at least one matching clause (every row for no clauses), in document order, never an empty list, each a row of the database that qualifies; null exactly when no row qualifies |
| Query.FindOneBy | src/DatabaseQuery.php:84-102 | the first row in document order whose last clause matches, the first row when there are no clauses, null exactly when none qualifies |
| Query.Update | src/DatabaseQuery.php:35-47 | persists, under the stored configuration, exactly the `findBy` rows with every parameter assigned, in order; unselected rows are dropped (and the outcome, a raised creation included, is `persist`'s) |
| Query.UpdateWithoutMatchDropsAll | src/DatabaseQuery.php:35-47 | when no clause matches any row, the document `update` writes has no rows at all |
| Query.Remove | src/DatabaseQuery.php:55-75 | persists, under the stored configuration, exactly the rows no clause matches, in their original order |
| Query.Insert | src/DatabaseQuery.php:15-26 | a `TypeError` only for a name that did not resolve; otherwise the last write carries the prepared stored document (stored flag, defaulting to false) with the new rows appended to the stored ones, and the result is true exactly when that write returned a path; for a resolving name the whole outcome is `persist` of the stored configuration with the rows appended; for a name that did not resolve and a creation write that returned a path, it is the creation write followed by that `persist` on the directory the creation left (a raise inside that `persist` included) |
| Query.InsertCreatesFirst | src/DatabaseQuery.php:17-20 | for a name that does not resolve, the first adapter call is an unencrypted write, with the adapter's result, to the creation path, of the skeleton with the flag false, no model and no rows; when it returns null the insert raises with nothing else done |
| Query.PartitionAppend | src/DatabaseQuery.php:112-126 | filtering a concatenation filters each part and keeps their order |
| Query.PartitionMembers | src/DatabaseQuery.php:112-126 | a row is found exactly when it is a row some clause selects, and kept by `remove` exactly when no clause does |
| Query.PartitionSplits | src/DatabaseQuery.php:58-67 | what `remove` deletes is what `findBy` finds: the two together are the rows, as a multiset |
| Query.EmptyWhereSelectsAll | src/DatabaseQuery.php:113-114 | no clauses: `findBy` returns all rows in order and `remove` keeps none |
| Query.NoMatchKeepsAll | src/DatabaseQuery.php:56-69 | clauses matching no row: `remove` keeps the rows unchanged and `findBy` finds nothing |
| Query.FindOneAgreesOnOneClause | src/DatabaseQuery.php:84-129 | with at most one clause, `findOneBy` returns the head of what `findBy` returns (null for null) |
| Query.FiltersDisagreeOnTwoClauses | src/DatabaseQuery.php:86-120 | with the clauses a=1, b=2, `findBy` selects both rows {a:1} and {b:2}, while `findOneBy` skips {a:1} and returns {b:2} |

## Left out

- File I/O and encryption. The adapter's write is a parameter, `Env.write`, and a successful write puts the document at the returned path.
- Store.Files: `Filesystem::find` is not part of this model. Its glob is modelled as every entry directly inside the trimmed directory with a database extension; what else a glob does (skipping hidden files, reading metacharacters in the directory name) is not modelled.
- YAML parsing and dumping. Documents are decoded values. A file whose content is the string `"0"` (falsy but not empty, which makes `get` return a string and fail the return type) is not represented.
- `Table::getAllKeys` (a parameter) and `Table::arrayOneLine`. The `$parsed` output of `findBy` and `findOneBy` is not modelled.
- The `Database::$errors` diagnostics list, and the `model()` accessor, which the core does not use.
- `unlink` and adapter delete failures. Removal always succeeds in the model.
- PHP's integer array keys and floats. Keys are strings; numeric-string keys are not converted to integers.
- Query.Juggling: `empty()` and loose `==` are uninterpreted, so no contract depends on PHP's type-juggling rules.
- Schema.InferModel: the code deduplicates with a loose `in_array`, so `"1"` and `"01"` count as the same key there. The model compares keys exactly.
- Store.Persist: returns true for any path the adapter returns. PHP would cast a returned `""` or `"0"` to false. The same holds for the removal decision at src/Database.php:111: `$file && …` is falsy for such a path, so the code keeps the old file where the model removes it.
- Store.Create: the same simplification of the adapter's returned path.
- Store.Persist: when no row yields a key, the code hands `create` an undefined model (null). The model hands it an empty list. Either skeleton is then replaced by the following write.
- Query.Insert: `!$database` also holds for a document decoded as `[]`. `create` then refuses and the reload returns the same document, so the model creates only when the name does not resolve.
- Store.DeleteUnresolves: requires that a single discovered file stands for the name. With two such files, `delete` removes the first and the name resolves to the second.

## Findings

| source | as written | input that shows it | evidently intended | confidence | as-written member | corrected member |
|---|---|---|---|---|---|---|
| src/Database.php:137-138 | `list` strips `.yaml` and `.yml` with `str_replace`, which removes every occurrence, anywhere in the filename | a file `a.yamlb.yml` (filename `a.yamlb`) is listed as `ab`, and `ab` does not resolve to it (it resolves as `a.yamlb`) | strip one trailing `.yaml` or `.yml`, so that every listed name resolves | medium, not executed | Store.ListAsWritten, Store.ListAsWrittenLosesName | Store.List, Store.ListName |

=== FILE: assoc.dfy ===
/**
 * Ordered association lists: the shape a PHP array keyed by strings takes.
 * Entries keep their insertion order; assigning to an existing key
 * overwrites it in place, assigning to a new key appends it.
 */
module Assoc {
  import opened Wrappers

  /** The keys of `s`, in order. */
  function Keys<K, V>(s: seq<(K, V)>): seq<K> {
    if |s| == 0 then [] else [s[0].0] + Keys(s[1..])
  }

  predicate HasKey<K(==), V>(s: seq<(K, V)>, k: K) {
    exists i :: 0 <= i < |s| && s[i].0 == k
  }

  /** No key occurs twice, as in every PHP array. */
  predicate DistinctKeys<K(==), V>(s: seq<(K, V)>) {
    forall i, j :: 0 <= i < j < |s| ==> s[i].0 != s[j].0
  }

  /** `$s[$k]`: the value of the first entry under `k`, if any. */
  function Lookup<K(==), V>(s: seq<(K, V)>, k: K): (r: Option<V>)
    ensures r.Some? <==> HasKey(s, k)
  {
    if |s| == 0 then None
    else if s[0].0 == k then Some(s[0].1)
    else
      var r := Lookup(s[1..], k);
      assert HasKey(s, k) ==> HasKey(s[1..], k) by {
        if HasKey(s, k) {
          var i :| 0 <= i < |s| && s[i].0 == k;
          assert s[1..][i - 1].0 == k;
        }
      }
      r
  }

  /** `$s[$k] = $v`: overwrite the entry under `k` in place, or append a new one. */
  function Put<K(==,!new), V>(s: seq<(K, V)>, k: K, v: V): (r: seq<(K, V)>)
    ensures Lookup(r, k) == Some(v)
    ensures forall k' :: k' != k ==> Lookup(r, k') == Lookup(s, k')
    ensures HasKey(s, k) ==> Keys(r) == Keys(s)
    ensures !HasKey(s, k) ==> Keys(r) == Keys(s) + [k]
  {
    if |s| == 0 then [(k, v)]
    else if s[0].0 == k then
      assert ([(k, v)] + s[1..])[1..] == s[1..];
      [(k, v)] + s[1..]
    else
      var t := Put(s[1..], k, v);
      assert HasKey(s, k) ==> HasKey(s[1..], k) by {
        if HasKey(s, k) {
          var i :| 0 <= i < |s| && s[i].0 == k;
          assert s[1..][i - 1].0 == k;
        }
      }
      assert ([s[0]] + t)[1..] == t;
      [s[0]] + t
  }

  /** `unset($s[$k])`: drop every entry under `k`, keeping the others in order. */
  function Remove<K(==,!new), V>(s: seq<(K, V)>, k: K): (r: seq<(K, V)>)
    ensures !HasKey(r, k)
    ensures forall k' :: k' != k ==> Lookup(r, k') == Lookup(s, k')
    ensures |r| <= |s|
  {
    if |s| == 0 then []
    else if s[0].0 == k then Remove(s[1..], k)
    else [s[0]] + Remove(s[1..], k)
  }

  /** Looking a key up after appending an entry. */
  lemma {:induction false} LookupSnoc<K, V>(s: seq<(K, V)>, k: K, v: V, k': K)
    ensures Lookup(s + [(k, v)], k') ==
      if HasKey(s, k') then Lookup(s, k') else if k' == k then Some(v) else None
    decreases |s|
  {
    if |s| == 0 {
      assert s + [(k, v)] == [(k, v)];
    } else {
      assert (s + [(k, v)])[1..] == s[1..] + [(k, v)];
      LookupSnoc(s[1..], k, v, k');
      if s[0].0 != k' {
        assert HasKey(s, k') <==> HasKey(s[1..], k') by {
          if HasKey(s, k') {
            var i :| 0 <= i < |s| && s[i].0 == k';
            assert s[1..][i - 1].0 == k';
          }
          if HasKey(s[1..], k') {
            var i :| 0 <= i < |s[1..]| && s[1..][i].0 == k';
            assert s[i + 1].0 == k';
          }
        }
      }
    }
  }
}

=== FILE: paths.dfy ===
/** The PHP string and path functions the store relies on. */
module Paths {
  import opened Wrappers

  type Path = string

  /** `rtrim($s, $c)` for a single character: strip every trailing `c`. */
  function TrimRight(s: string, c: char): (r: string)
    ensures r <= s
    ensures |r| == 0 || r[|r| - 1] != c
    ensures forall i :: |r| <= i < |s| ==> s[i] == c
  {
    if |s| > 0 && s[|s| - 1] == c then TrimRight(s[..|s| - 1], c) else s
  }

  /** The position of the last `c` in `s`, if any. */
  function LastIndex(s: string, c: char): (r: Option<nat>)
    ensures r.Some? ==> r.value < |s|
  {
    if |s| == 0 then None
    else if s[|s| - 1] == c then Some(|s| - 1)
    else LastIndex(s[..|s| - 1], c)
  }

  /** `LastIndex` finds a `c` with none after it, and finds none only when `s` has none. */
  lemma {:induction false} LastIndexSpec(s: string, c: char)
    ensures LastIndex(s, c).None? <==> c !in s
    ensures LastIndex(s, c).Some? ==>
      var i := LastIndex(s, c).value;
      i < |s| && s[i] == c && c !in s[i + 1..]
  {
    if |s| > 0 && s[|s| - 1] != c {
      var n := |s| - 1;
      LastIndexSpec(s[..n], c);
      assert s == s[..n] + [s[n]];
      var r := LastIndex(s[..n], c);
      if r.Some? {
        assert s[r.value + 1..] == s[..n][r.value + 1..] + [s[n]];
      }
    }
  }

  /** An occurrence of `c` with no `c` after it is the last one. */
  lemma LastIndexUnique(s: string, c: char, i: nat)
    requires i < |s| && s[i] == c && c !in s[i + 1..]
    ensures LastIndex(s, c) == Some(i)
  {
    LastIndexSpec(s, c);
    var r := LastIndex(s, c).value;
    assert s[r] == c && c !in s[r + 1..];
    assert !(r < i) by {
      assert forall k :: r < k < |s| ==> s[k] in s[r + 1..];
    }
    assert !(i < r) by {
      assert forall k :: i < k < |s| ==> s[k] in s[i + 1..];
    }
  }

  /** `basename($p)`: what follows the last `/`. */
  function Basename(p: Path): string {
    match LastIndex(p, '/')
    case None => p
    case Some(i) => p[i + 1..]
  }

  /** The base name is the slash-free tail of the path, preceded by a slash when shorter. */
  lemma BasenameShape(p: Path)
    ensures '/' !in Basename(p)
    ensures |Basename(p)| <= |p| && p[|p| - |Basename(p)|..] == Basename(p)
    ensures |Basename(p)| < |p| ==> p[|p| - |Basename(p)| - 1] == '/'
  {
    LastIndexSpec(p, '/');
  }

  /** `pathinfo($p)['filename']`: the base name up to its last `.`. */
  function Filename(p: Path): string {
    var b := Basename(p);
    match LastIndex(b, '.')
    case None => b
    case Some(i) => b[..i]
  }

  /** `pathinfo($p)['extension']`: what follows the last `.` of the base name, if there is one. */
  function Extension(p: Path): Option<string> {
    var b := Basename(p);
    match LastIndex(b, '.')
    case None => None
    case Some(i) => Some(b[i + 1..])
  }

  /**
   * The filename and the extension split the base name at its last dot;
   * without a dot the filename is the whole base name.
   */
  lemma FilenameShape(p: Path)
    ensures Extension(p).None? <==> '.' !in Basename(p)
    ensures Extension(p).None? ==> Filename(p) == Basename(p)
    ensures Extension(p).Some? ==>
      Filename(p) + "." + Extension(p).value == Basename(p) && '.' !in Extension(p).value
  {
    var b := Basename(p);
    LastIndexSpec(b, '.');
    match LastIndex(b, '.')
    case None =>
    case Some(i) =>
      assert b == b[..i] + "." + b[i + 1..];
  }

  /** A path ending in `/` followed by a name without slashes has that name as base name. */
  lemma BasenameAfterSlash(dir: string, b: string)
    requires '/' !in b
    ensures Basename(dir + "/" + b) == b
  {
    var p := dir + "/" + b;
    BasenameShape(p);
    assert p[|dir|] == '/';
    assert p[|dir| + 1..] == b;
    LastIndexUnique(p, '/', |dir|);
  }

  /** A base name made of a stem, a dot and a dot-free extension splits back into the two. */
  lemma SplitExtension(dir: string, stem: string, ext: string)
    requires '/' !in stem && '/' !in ext && '.' !in ext
    ensures Filename(dir + "/" + stem + "." + ext) == stem
    ensures Extension(dir + "/" + stem + "." + ext) == Some(ext)
  {
    var b := stem + "." + ext;
    assert dir + "/" + stem + "." + ext == dir + "/" + b;
    BasenameAfterSlash(dir, b);
    assert b[|stem|] == '.';
    assert b[|stem| + 1..] == ext;
    LastIndexUnique(b, '.', |stem|);
  }

  /** `p` names an entry directly inside `dir`: one a glob of `*` in `dir` reaches. */
  predicate InDirectory(dir: string, p: Path) {
    |dir| + 1 < |p| && p[..|dir| + 1] == dir + "/" && '/' !in p[|dir| + 1..]
  }

  /** A non-empty name without slashes, put after `dir/`, is directly inside `dir`. */
  lemma InDirectoryAppend(dir: string, b: string)
    requires '/' !in b && |b| > 0
    ensures InDirectory(dir, dir + "/" + b)
  {
    var p := dir + "/" + b;
    assert p[..|dir| + 1] == dir + "/";
    assert p[|dir| + 1..] == b;
  }

  ghost predicate OccursAt(s: string, needle: string, i: nat) {
    i + |needle| <= |s| && s[i..i + |needle|] == needle
  }

  ghost predicate Occurs(s: string, needle: string) {
    exists i: nat :: OccursAt(s, needle, i)
  }

  /** `str_replace($needle, '', $s)`: delete every occurrence of `needle`, scanning left to right. */
  function RemoveAll(s: string, needle: string): (r: string)
    requires |needle| > 0
    ensures |r| <= |s|
    ensures !Occurs(s, needle) ==> r == s
    decreases |s|
  {
    if |s| < |needle| then s
    else if s[..|needle|] == needle then
      assert OccursAt(s, needle, 0);
      RemoveAll(s[|needle|..], needle)
    else
      assert forall i: nat :: OccursAt(s[1..], needle, i) ==> OccursAt(s, needle, i + 1) by {
        forall i: nat | OccursAt(s[1..], needle, i)
          ensures OccursAt(s, needle, i + 1)
        {
          assert s[i + 1..i + 1 + |needle|] == s[1..][i..i + |needle|];
        }
      }
      [s[0]] + RemoveAll(s[1..], needle)
  }
}

=== FILE: query.dfy ===
/**
 * The query engine (src/DatabaseQuery.php): every operation reads the whole
 * document through the store, transforms its rows in memory and, for the
 * mutating ones, persists the whole document again.
 *
 * The three filters are modelled as the code evaluates them, clause by
 * clause: `findBy` and `remove` select a row when any clause matches, and
 * `findOneBy` lets the last clause alone decide.
 */
module Query {
  import opened Wrappers
  import opened Values
  import opened Schema
  import Assoc
  import Seqs
  import Store

  /** PHP's `empty()` and loose `==`, left uninterpreted. */
  datatype Juggling = Juggling(empty: Value -> bool, looseEq: (Value, Value) -> bool)

  /** Where-clauses, field to expected value, in the order the caller wrote them. */
  type Where = seq<(Key, Value)>

  /** One clause, `!empty($row[$key]) && $row[$key] == $value`; a missing field is empty. */
  predicate ClauseMatch(j: Juggling, row: Row, k: Key, v: Value) {
    var x := Assoc.Lookup(row, k);
    x.Some? && !j.empty(x.value) && j.looseEq(x.value, v)
  }

  /** The `findBy` and `remove` filter: no clauses selects every row, otherwise any matching clause does. */
  predicate Selected(j: Juggling, row: Row, where: Where) {
    |where| == 0 || exists i :: 0 <= i < |where| && ClauseMatch(j, row, where[i].0, where[i].1)
  }

  /** The `findOneBy` filter: each clause overwrites the flag, so the last clause alone decides. */
  predicate SelectedByLast(j: Juggling, row: Row, where: Where) {
    |where| == 0 || ClauseMatch(j, row, where[|where| - 1].0, where[|where| - 1].1)
  }

  /** Reference definition: the rows whose selection is `side`, in document order. */
  function Partition(j: Juggling, rows: seq<Row>, where: Where, side: bool): (r: seq<Row>)
    ensures |r| <= |rows|
    decreases |rows|
  {
    if |rows| == 0 then []
    else
      var n := |rows| - 1;
      assert rows == rows[..n] + [rows[n]];
      Partition(j, rows[..n], where, side) + (if Selected(j, rows[n], where) == side then [rows[n]] else [])
  }

  /** Reference definition: the first row, in document order, that the `findOneBy` filter keeps. */
  function FirstSelected(j: Juggling, rows: seq<Row>, where: Where): Option<Row> {
    Seqs.FirstWhere(rows, row => SelectedByLast(j, row, where))
  }

  /** `$results ?? null`: no selected rows is null, never an empty sequence. */
  function Found(rows: seq<Row>): (r: Option<seq<Row>>)
    ensures r.None? <==> |rows| == 0
    ensures r.Some? ==> r.value == rows
  {
    if |rows| == 0 then None else Some(rows)
  }

  /** The clause loop of `findBy` (and, negated, of `remove`). */
  method ExcludedByAny(j: Juggling, row: Row, where: Where) returns (excluded: bool)
    ensures excluded <==> !Selected(j, row, where)
  {
    excluded := false;
    if |where| > 0 {
      excluded := true;
      var c := 0;
      while c < |where|
        invariant 0 <= c <= |where|
        invariant excluded <==> forall c' :: 0 <= c' < c ==> !ClauseMatch(j, row, where[c'].0, where[c'].1)
      {
        if ClauseMatch(j, row, where[c].0, where[c].1) {
          excluded := false;
        }
        c := c + 1;
      }
    }
  }

  /** The clause loop of `findOneBy`: every clause sets the flag afresh. */
  method ExcludedByLast(j: Juggling, row: Row, where: Where) returns (excluded: bool)
    ensures excluded <==> !SelectedByLast(j, row, where)
  {
    excluded := false;
    if |where| > 0 {
      excluded := true;
      var c := 0;
      while c < |where|
        invariant 0 <= c <= |where|
        invariant c > 0 ==> (excluded <==> !ClauseMatch(j, row, where[c - 1].0, where[c - 1].1))
      {
        if ClauseMatch(j, row, where[c].0, where[c].1) {
          excluded := false;
        } else {
          excluded := true;
        }
        c := c + 1;
      }
    }
  }

  /** The row loop of `remove`: the rows no clause selects, in order. */
  method KeepRows(j: Juggling, rows: seq<Row>, where: Where) returns (kept: seq<Row>)
    ensures kept == Partition(j, rows, where, false)
  {
    kept := [];
    var i := 0;
    while i < |rows|
      invariant 0 <= i <= |rows|
      invariant kept == Partition(j, rows[..i], where, false)
    {
      // `$remove` is the negation of `findBy`'s `$excluded`.
      var excluded := ExcludedByAny(j, rows[i], where);
      var remove := !excluded;
      if !remove {
        kept := kept + [rows[i]];
      }
      assert rows[..i + 1][..i] == rows[..i];
      assert Partition(j, rows[..i + 1], where, false)
        == Partition(j, rows[..i], where, false) + (if !Selected(j, rows[i], where) then [rows[i]] else []);
      i := i + 1;
    }
    assert rows[..|rows|] == rows;
  }

  /** Every row of `rows` with the parameters assigned. */
  function PatchAll(rows: seq<Row>, params: Row): (r: seq<Row>)
    ensures |r| == |rows|
    ensures forall i :: 0 <= i < |rows| ==> r[i] == Patch(rows[i], params)
  {
    seq(|rows|, i requires 0 <= i < |rows| => Patch(rows[i], params))
  }

  /** The inner loop of `update`: `$row[$key] = $value` for each parameter in turn. */
  method PatchRow(row: Row, params: Row) returns (r: Row)
    ensures r == Patch(row, params)
  {
    r := row;
    var c := 0;
    while c < |params|
      invariant 0 <= c <= |params|
      invariant r == Patch(row, params[..c])
    {
      r := Assoc.Put(r, params[c].0, params[c].1);
      assert params[..c + 1][..c] == params[..c];
      c := c + 1;
    }
    assert params[..|params|] == params;
  }

  /** The outer loop of `update`: every parameter assigned to every row. */
  method PatchRows(matched: seq<Row>, params: Row) returns (rows: seq<Row>)
    ensures |rows| == |matched|
    ensures rows == PatchAll(matched, params)
  {
    rows := [];
    var i := 0;
    while i < |matched|
      invariant 0 <= i <= |matched|
      invariant |rows| == i
      invariant forall k :: 0 <= k < i ==> rows[k] == Patch(matched[k], params)
    {
      var row := PatchRow(matched[i], params);
      rows := rows + [row];
      i := i + 1;
    }
    assert rows == PatchAll(matched, params);
  }

  /**
   * `findBy($db_name, $where)` over the rows `rows($db_name)` returns: the
   * rows some clause selects (every row when there are no clauses), in
   * document order, or null when none is selected.
   */
  method FindBy(j: Juggling, rows: seq<Row>, where: Where) returns (r: Option<seq<Row>>)
    ensures r == Found(Partition(j, rows, where, true))
    ensures r.Some? ==> |r.value| > 0 && forall i :: 0 <= i < |r.value| ==> r.value[i] in rows && Selected(j, r.value[i], where)
    ensures r.None? <==> forall i :: 0 <= i < |rows| ==> !Selected(j, rows[i], where)
  {
    var results := [];
    var i := 0;
    while i < |rows|
      invariant 0 <= i <= |rows|
      invariant results == Partition(j, rows[..i], where, true)
    {
      var excluded := ExcludedByAny(j, rows[i], where);
      if !excluded {
        results := results + [rows[i]];
      }
      assert rows[..i + 1][..i] == rows[..i];
      assert Partition(j, rows[..i + 1], where, true)
        == Partition(j, rows[..i], where, true) + (if Selected(j, rows[i], where) then [rows[i]] else []);
      i := i + 1;
    }
    assert rows[..|rows|] == rows;
    r := Found(results);
    if r.Some? {
      forall k | 0 <= k < |results|
        ensures results[k] in rows && Selected(j, results[k], where)
      {
        PartitionMembers(j, rows, where, true, results[k]);
      }
      var k :| 0 <= k < |rows| && rows[k] == results[0];
      assert Selected(j, rows[k], where);
    } else {
      forall k | 0 <= k < |rows|
        ensures !Selected(j, rows[k], where)
      {
        PartitionMembers(j, rows, where, true, rows[k]);
      }
    }
  }

  /**
   * `findOneBy($db_name, $where)` over the rows `rows($db_name)` returns: the
   * first row, in document order, for which the last clause matches (the
   * first row when there are no clauses), or null.
   */
  method FindOneBy(j: Juggling, rows: seq<Row>, where: Where) returns (r: Option<Row>)
    ensures r == FirstSelected(j, rows, where)
    ensures r.Some? ==> r.value in rows && SelectedByLast(j, r.value, where)
    ensures r.None? <==> forall i :: 0 <= i < |rows| ==> !SelectedByLast(j, rows[i], where)
    ensures |where| == 0 && |rows| > 0 ==> r == Some(rows[0])
  {
    var i := 0;
    while i < |rows|
      invariant 0 <= i <= |rows|
      invariant forall k :: 0 <= k < i ==> !SelectedByLast(j, rows[k], where)
    {
      var excluded := ExcludedByLast(j, rows[i], where);
      if !excluded {
        return Some(rows[i]);
      }
      i := i + 1;
    }
    return None;
  }

  /**
   * `update($db_name, $where, $parameters)`: persists the `findBy` rows,
   * each with every parameter assigned, in place of all rows; rows the
   * filter does not select are dropped.
   */
  method Update(env: Store.Env, j: Juggling, fs: Store.Fs, name: string, where: Where, params: Row)
    returns (o: Store.Outcome)
    ensures o == Store.Persist(env, fs, name,
      Document(Store.StoredConfig(fs, name), PatchAll(Partition(j, Store.Rows(fs, name), where, true), params)))
  {
    var found := FindBy(j, Store.Rows(fs, name), where);
    var matched := found.GetOr([]);
    var rows := PatchRows(matched, params);
    o := Store.Persist(env, fs, name, Document(Store.StoredConfig(fs, name), rows));
  }

  /**
   * `remove($db_name, $where)`: persists exactly the rows no clause
   * matches, in their original order; no clauses removes every row.
   */
  method Remove(env: Store.Env, j: Juggling, fs: Store.Fs, name: string, where: Where) returns (o: Store.Outcome)
    ensures o == Store.Persist(env, fs, name,
      Document(Store.StoredConfig(fs, name), Partition(j, Store.Rows(fs, name), where, false)))
    ensures Store.LastWrite(o.log).value.doc.rows == Partition(j, Store.Rows(fs, name), where, false)
  {
    var rows := Store.Rows(fs, name);
    var kept := KeepRows(j, rows, where);
    o := Store.Persist(env, fs, name, Document(Store.StoredConfig(fs, name), kept));
  }

  /**
   * `insert($db_name, $rows)`: creates the database when the name does not
   * resolve (a failed creation write aborts), then persists the stored
   * document with the new rows appended to its rows.
   */
  function Insert(env: Store.Env, fs: Store.Fs, name: string, rows: seq<Row>): (o: Store.Outcome)
    ensures o.raised ==> Store.File(fs, name).None? && !o.ok
    ensures !o.raised ==>
      && Store.LastWrite(o.log).Some?
      && Store.LastWrite(o.log).value.doc
           == Prepare(env.keys, Document(Store.StoredConfig(fs, name), Store.Rows(fs, name) + rows))
      && (o.ok <==> Store.LastWrite(o.log).value.result.Some?)
    ensures Store.File(fs, name).Some? ==>
      o == Store.Persist(env, fs, name, Document(Store.StoredConfig(fs, name), Store.Rows(fs, name) + rows))
    ensures Store.File(fs, name).None? ==>
      && |o.log| > 0
      && o.log[0].Write?
      && (o.log[0].result.Some? ==>
            var created := Store.Commit(fs, o.log[0].result, o.log[0].doc);
            var p := Store.Persist(env, created, name,
              Document(Store.StoredConfig(created, name), Store.Rows(created, name) + rows));
            o == Store.Outcome(p.ok, p.fs, [o.log[0]] + p.log, p.raised))
  {
    // `!$database` also holds for a file whose payload is `[]`; `create`
    // then refuses and the reload yields the same document, so only a name
    // that does not resolve makes a difference.
    var created := if Store.Get(fs, name).None? then Store.Create(env, fs, name, [], false) else Store.Outcome(false, fs, [], false);
    if created.raised then created
    else
      var database := Store.Get(created.fs, name).GetOr(EmptyDocument);
      var stored := Document(Store.StoredConfig(fs, name), Store.Rows(fs, name) + rows);
      assert database.rows == Store.Rows(fs, name)
        && database.config.encrypted.GetOr(false) == Store.StoredConfig(fs, name).encrypted.GetOr(false) by {
        if Store.Get(fs, name).None? {
          Store.CreateReadsBack(env, fs, name, [], false);
        }
      }
      var persisted := Store.Persist(env, created.fs, name, database.(rows := database.rows + rows));
      PrepareIgnoresModel(env.keys, database.(rows := database.rows + rows), stored);
      Store.LastWriteAppend(created.log, persisted.log);
      assert created.log == [] ==> created.log + persisted.log == persisted.log;
      Store.Outcome(persisted.ok, persisted.fs, created.log + persisted.log, persisted.raised)
  }

  /**
   * An insert under a name that does not resolve first writes the empty,
   * unencrypted database; when that write fails, nothing else happens.
   */
  lemma InsertCreatesFirst(env: Store.Env, fs: Store.Fs, name: string, rows: seq<Row>)
    requires Store.File(fs, name).None?
    ensures var o := Insert(env, fs, name, rows);
      && o.log[0].Write?
      && o.log[0].target == Store.CreationPath(fs.directory, name, false)
      && o.log[0].doc == Document(Config(Some(false), []), [])
      && o.log[0].encrypt == false
      && o.log[0].result == env.write(o.log[0].target, o.log[0].doc, false)
      && (o.log[0].result.None? ==> o.raised && !o.ok && o.fs == fs && |o.log| == 1)
  {
  }

  /**
   * An update whose clauses match no row writes a database without rows: the
   * whole table is dropped.
   */
  lemma UpdateWithoutMatchDropsAll(env: Store.Env, j: Juggling, fs: Store.Fs, name: string, where: Where, params: Row)
    requires forall i :: 0 <= i < |Store.Rows(fs, name)| ==> !Selected(j, Store.Rows(fs, name)[i], where)
    ensures var o := Store.Persist(env, fs, name,
      Document(Store.StoredConfig(fs, name), PatchAll(Partition(j, Store.Rows(fs, name), where, true), params)));
      Store.LastWrite(o.log).value.doc.rows == []
  {
    NoMatchKeepsAll(j, Store.Rows(fs, name), where);
  }

  /** Splitting the rows splits both sides of the partition the same way: the order is kept. */
  lemma {:induction false} PartitionAppend(j: Juggling, a: seq<Row>, b: seq<Row>, where: Where, side: bool)
    ensures Partition(j, a + b, where, side) == Partition(j, a, where, side) + Partition(j, b, where, side)
    decreases |b|
  {
    if |b| == 0 {
      assert a + b == a;
    } else {
      var n := |b| - 1;
      assert (a + b)[..|a + b| - 1] == a + b[..n];
      PartitionAppend(j, a, b[..n], where, side);
    }
  }

  /** A row is on the `side` of the partition exactly when it is a row whose selection is `side`. */
  lemma {:induction false} PartitionMembers(j: Juggling, rows: seq<Row>, where: Where, side: bool, x: Row)
    ensures x in Partition(j, rows, where, side) <==> x in rows && Selected(j, x, where) == side
    decreases |rows|
  {
    if |rows| > 0 {
      var n := |rows| - 1;
      PartitionMembers(j, rows[..n], where, side, x);
      assert rows == rows[..n] + [rows[n]];
    }
  }

  /** `remove` deletes exactly the rows `findBy` returns: together they are the rows. */
  lemma {:induction false} PartitionSplits(j: Juggling, rows: seq<Row>, where: Where)
    ensures multiset(Partition(j, rows, where, true)) + multiset(Partition(j, rows, where, false)) == multiset(rows)
    decreases |rows|
  {
    if |rows| > 0 {
      var n := |rows| - 1;
      PartitionSplits(j, rows[..n], where);
      assert rows == rows[..n] + [rows[n]];
      assert multiset(rows) == multiset(rows[..n]) + multiset{rows[n]};
    }
  }

  /** No clauses: `findBy` returns every row in order and `remove` keeps none. */
  lemma {:induction false} EmptyWhereSelectsAll(j: Juggling, rows: seq<Row>)
    ensures Partition(j, rows, [], true) == rows
    ensures Partition(j, rows, [], false) == []
    decreases |rows|
  {
    if |rows| > 0 {
      var n := |rows| - 1;
      EmptyWhereSelectsAll(j, rows[..n]);
      assert rows == rows[..n] + [rows[n]];
    }
  }

  /** Clauses that match no row: `remove` keeps the rows unchanged and `findBy` finds nothing. */
  lemma {:induction false} NoMatchKeepsAll(j: Juggling, rows: seq<Row>, where: Where)
    requires forall i :: 0 <= i < |rows| ==> !Selected(j, rows[i], where)
    ensures Partition(j, rows, where, false) == rows
    ensures Partition(j, rows, where, true) == []
    decreases |rows|
  {
    if |rows| > 0 {
      var n := |rows| - 1;
      NoMatchKeepsAll(j, rows[..n], where);
      assert rows == rows[..n] + [rows[n]];
    }
  }

  /** With at most one clause, `findOneBy` returns the head of what `findBy` returns. */
  lemma {:induction false} FindOneAgreesOnOneClause(j: Juggling, rows: seq<Row>, where: Where)
    requires |where| <= 1
    ensures FirstSelected(j, rows, where) ==
      match Found(Partition(j, rows, where, true))
      case None => None
      case Some(s) => Some(s[0])
    decreases |rows|
  {
    if |rows| > 0 {
      assert rows == [rows[0]] + rows[1..];
      PartitionAppend(j, [rows[0]], rows[1..], where, true);
      assert [rows[0]][..0] == [];
      assert SelectedByLast(j, rows[0], where) == Selected(j, rows[0], where);
      FindOneAgreesOnOneClause(j, rows[1..], where);
    }
  }

  /**
   * With two clauses the filters part ways: a row matching only the first
   * clause is found by `findBy` (any clause) but skipped by `findOneBy`
   * (last clause), so `findOneBy` does not return the head of `findBy`.
   */
  lemma FiltersDisagreeOnTwoClauses()
    ensures var j := Juggling(v => v == Null, (a, b) => a == b);
      var rows := [[("a", Int(1))], [("b", Int(2))]];
      var where := [("a", Int(1)), ("b", Int(2))];
      && Partition(j, rows, where, true) == rows
      && FirstSelected(j, rows, where) == Some(rows[1])
  {
    var j := Juggling(v => v == Null, (a, b) => a == b);
    var r0: Row := [("a", Int(1))];
    var r1: Row := [("b", Int(2))];
    var rows := [r0, r1];
    var where := [("a", Int(1)), ("b", Int(2))];
    assert ClauseMatch(j, r0, where[0].0, where[0].1);
    assert Selected(j, r0, where);
    assert ClauseMatch(j, r1, where[1].0, where[1].1);
    assert Selected(j, r1, where);
    assert Assoc.Lookup(r0, "b").None?;
    assert !SelectedByLast(j, r0, where);
    assert SelectedByLast(j, r1, where);
    assert rows[..1] == [r0];
    assert rows[..1][..0] == [];
  }
}

=== FILE: schema.dfy ===
/**
 * The database document and the field list (`config.model`) that every
 * persist re-derives from its rows.
 */
module Schema {
  import opened Wrappers
  import opened Values

  /**
   * The `config` block. `encrypted` is `None` when the key is absent; an
   * absent `config` block reads as `Config(None, [])`.
   */
  datatype Config = Config(encrypted: Option<bool>, model: seq<Key>)

  /** One database: its configuration and its rows, in insertion order. */
  datatype Document = Document(config: Config, rows: seq<Row>)

  /** The document `get` substitutes for a null payload. */
  const Default := Document(Config(Some(false), []), [])

  /** The empty array `[]`: no config block and no rows. */
  const EmptyDocument := Document(Config(None, []), [])

  predicate Distinct<T(==)>(s: seq<T>) {
    forall i, j :: 0 <= i < j < |s| ==> s[i] != s[j]
  }

  /** The position of the first occurrence of `x` in `s`. */
  function FirstIndex<T(==)>(s: seq<T>, x: T): (r: nat)
    requires x in s
    ensures r < |s| && s[r] == x && x !in s[..r]
  {
    if s[0] == x then 0
    else
      var r := FirstIndex(s[1..], x);
      assert s[..r + 1] == [s[0]] + s[1..][..r];
      r + 1
  }

  /** Every field name returned for every row, row after row (with repetitions). */
  function Flatten(keys: Row -> seq<Key>, rows: seq<Row>): (r: seq<Key>)
    ensures forall k :: k in r <==> exists i :: 0 <= i < |rows| && k in keys(rows[i])
  {
    if |rows| == 0 then []
    else
      var r := keys(rows[0]) + Flatten(keys, rows[1..]);
      assert forall i :: 1 <= i < |rows| ==> rows[i] == rows[1..][i - 1];
      r
  }

  /**
   * Reference definition: the elements of `s` at their first occurrence, in
   * the order those occurrences appear.
   */
  function FirstOccurrences<T(==,!new)>(s: seq<T>): (r: seq<T>)
    ensures Distinct(r)
    ensures forall x :: x in r <==> x in s
  {
    if |s| == 0 then []
    else
      var n := |s| - 1;
      var p := FirstOccurrences(s[..n]);
      assert s == s[..n] + [s[n]];
      if s[n] in p then p else p + [s[n]]
  }

  /** The order of `FirstOccurrences(s)` is the order of first occurrence in `s`. */
  lemma {:induction false} FirstOccurrencesOrdered<T(!new)>(s: seq<T>, i: nat, j: nat)
    requires i < j < |FirstOccurrences(s)|
    ensures FirstIndex(s, FirstOccurrences(s)[i]) < FirstIndex(s, FirstOccurrences(s)[j])
    decreases |s|
  {
    var n := |s| - 1;
    var pre := s[..n];
    var p := FirstOccurrences(pre);
    var r := FirstOccurrences(s);
    assert s == pre + [s[n]];
    assert r[i] in pre by {
      assert r[i] in p;
    }
    FirstIndexOfPrefix(pre, s[n], r[i]);
    if j < |p| {
      FirstIndexOfPrefix(pre, s[n], r[j]);
      FirstOccurrencesOrdered(pre, i, j);
    } else {
      assert r[j] == s[n] && s[n] !in pre;
      FirstIndexOfNew(pre, s[n]);
    }
  }

  lemma FirstIndexOfPrefix<T>(s: seq<T>, last: T, x: T)
    requires x in s
    ensures FirstIndex(s + [last], x) == FirstIndex(s, x)
  {
    var b := FirstIndex(s, x);
    assert (s + [last])[..b] == s[..b];
    FirstIndexUnique(s + [last], x, b);
  }

  /** An occurrence with none before it is the first one. */
  lemma {:induction false} FirstIndexUnique<T>(s: seq<T>, x: T, i: nat)
    requires i < |s| && s[i] == x && x !in s[..i]
    ensures FirstIndex(s, x) == i
  {
    if i > 0 {
      assert s[0] in s[..i];
      assert s[1..][..i - 1] == s[1..i];
      FirstIndexUnique(s[1..], x, i - 1);
    }
  }

  lemma FirstIndexOfNew<T>(s: seq<T>, x: T)
    requires x !in s
    ensures FirstIndex(s + [x], x) == |s|
  {
    assert (s + [x])[..|s|] == s;
    FirstIndexUnique(s + [x], x, |s|);
  }

  /** The inner loop of `persist`: append each key of one row unless the model has it already. */
  function AddKeys(model: seq<Key>, ks: seq<Key>): seq<Key>
    decreases |ks|
  {
    if |ks| == 0 then model
    else AddKeys(if ks[0] in model then model else model + [ks[0]], ks[1..])
  }

  /** The outer loop of `persist`: add the keys of every row, row by row. */
  function AddRows(keys: Row -> seq<Key>, model: seq<Key>, rows: seq<Row>): seq<Key>
    decreases |rows|
  {
    if |rows| == 0 then model
    else AddRows(keys, AddKeys(model, keys(rows[0])), rows[1..])
  }

  lemma FirstOccurrencesSnoc<T(!new)>(p: seq<T>, x: T)
    ensures FirstOccurrences(p + [x]) ==
      if x in FirstOccurrences(p) then FirstOccurrences(p) else FirstOccurrences(p) + [x]
  {
    var q := p + [x];
    assert q[..|q| - 1] == p;
  }

  /** Finishing the scan of `s` from position `i` on completes its first occurrences. */
  lemma {:induction false} AddKeysFrom(s: seq<Key>, i: nat)
    requires i <= |s|
    ensures AddKeys(FirstOccurrences(s[..i]), s[i..]) == FirstOccurrences(s)
    decreases |s| - i
  {
    if i == |s| {
      assert s[..i] == s;
    } else {
      assert s[..i + 1] == s[..i] + [s[i]];
      assert s[i..][1..] == s[i + 1..];
      FirstOccurrencesSnoc(s[..i], s[i]);
      AddKeysFrom(s, i + 1);
    }
  }

  lemma AddKeysIsFirstOccurrences(p: seq<Key>, ks: seq<Key>)
    ensures AddKeys(FirstOccurrences(p), ks) == FirstOccurrences(p + ks)
  {
    var s := p + ks;
    assert s[..|p|] == p && s[|p|..] == ks;
    AddKeysFrom(s, |p|);
  }

  lemma {:induction false} AddRowsIsFirstOccurrences(keys: Row -> seq<Key>, p: seq<Key>, rows: seq<Row>)
    ensures AddRows(keys, FirstOccurrences(p), rows) == FirstOccurrences(p + Flatten(keys, rows))
    decreases |rows|
  {
    if |rows| == 0 {
      assert p + Flatten(keys, rows) == p;
    } else {
      var ks := keys(rows[0]);
      var rest := Flatten(keys, rows[1..]);
      assert Flatten(keys, rows) == ks + rest;
      AddKeysIsFirstOccurrences(p, ks);
      AddRowsIsFirstOccurrences(keys, p + ks, rows[1..]);
      assert (p + ks) + rest == p + (ks + rest);
    }
  }

  /**
   * The `model` that `persist` stores: each field name returned for any row,
   * once, in order of first appearance (row by row, then within the row).
   */
  function InferModel(keys: Row -> seq<Key>, rows: seq<Row>): (r: seq<Key>)
    ensures r == FirstOccurrences(Flatten(keys, rows))
    ensures Distinct(r)
    ensures forall k :: k in r <==> exists i :: 0 <= i < |rows| && k in keys(rows[i])
  {
    AddRowsIsFirstOccurrences(keys, [], rows);
    assert [] + Flatten(keys, rows) == Flatten(keys, rows);
    AddRows(keys, [], rows)
  }

  /** Keys of the stored model appear in the order in which rows first mention them. */
  lemma InferModelOrdered(keys: Row -> seq<Key>, rows: seq<Row>, i: nat, j: nat)
    requires i < j < |InferModel(keys, rows)|
    ensures FirstIndex(Flatten(keys, rows), InferModel(keys, rows)[i])
          < FirstIndex(Flatten(keys, rows), InferModel(keys, rows)[j])
  {
    FirstOccurrencesOrdered(Flatten(keys, rows), i, j);
  }

  /**
   * The document `persist` hands to the writer: the model re-derived from
   * the rows, the encryption flag defaulted to false, the rows unchanged.
   */
  function Prepare(keys: Row -> seq<Key>, doc: Document): (d: Document)
    ensures d.rows == doc.rows
    ensures doc.config.encrypted.Some? ==> d.config.encrypted == doc.config.encrypted
    ensures doc.config.encrypted.None? ==> d.config.encrypted == Some(false)
    ensures Distinct(d.config.model)
    ensures forall k :: k in d.config.model <==> exists i :: 0 <= i < |doc.rows| && k in keys(doc.rows[i])
  {
    Document(Config(Some(doc.config.encrypted.GetOr(false)), InferModel(keys, doc.rows)), doc.rows)
  }

  /** A caller-supplied model never reaches the file: only the rows and the flag matter. */
  lemma PrepareIgnoresModel(keys: Row -> seq<Key>, d1: Document, d2: Document)
    requires d1.rows == d2.rows
    requires d1.config.encrypted.GetOr(false) == d2.config.encrypted.GetOr(false)
    ensures Prepare(keys, d1) == Prepare(keys, d2)
  {
  }
}

=== FILE: seqs.dfy ===
/** Searching sequences. */
module Seqs {
  import opened Wrappers

  /** The first element of `s`, in order, that `accept` holds of. */
  function FirstWhere<T>(s: seq<T>, accept: T -> bool): (r: Option<T>)
    ensures r.None? <==> forall i :: 0 <= i < |s| ==> !accept(s[i])
    ensures r.Some? ==>
      exists i :: 0 <= i < |s| && s[i] == r.value && accept(s[i])
        && forall i' :: 0 <= i' < i ==> !accept(s[i'])
  {
    if |s| == 0 then None
    else if accept(s[0]) then Some(s[0])
    else
      var r := FirstWhere(s[1..], accept);
      assert r.Some? ==>
        exists i :: 0 <= i < |s| && s[i] == r.value && accept(s[i])
          && forall i' :: 0 <= i' < i ==> !accept(s[i'])
      by {
        if r.Some? {
          var i :| 0 <= i < |s[1..]| && s[1..][i] == r.value && accept(s[1..][i])
            && forall i' :: 0 <= i' < i ==> !accept(s[1..][i']);
          assert s[i + 1] == r.value;
          assert forall i' :: 1 <= i' < i + 1 ==> s[i'] == s[1..][i' - 1];
        }
      }
      assert r.None? ==> forall i :: 0 <= i < |s| ==> !accept(s[i]) by {
        assert forall i :: 1 <= i < |s| ==> s[i] == s[1..][i - 1];
      }
      r
  }
}

=== FILE: store.dfy ===
/**
 * The store: resolving a database name to a file, loading, creating,
 * persisting and deleting whole documents (src/Database.php).
 *
 * The filesystem is a sequence of (path, content) entries; its order is the
 * order in which the adapter discovers files, and a write to a new path
 * appends an entry. The adapter's write and the row-key extractor are
 * parameters the model does not look inside.
 */
module Store {
  import opened Wrappers
  import opened Values
  import opened Paths
  import opened Schema
  import Assoc
  import Seqs

  /** What the read adapter and the YAML decoder together make of a file. */
  datatype Content =
    | Unreadable         // the read adapter returned null
    | EmptyText          // the file or its decoded payload is the empty string
    | NullPayload        // the payload decodes to null
    | Stored(doc: Document)

  /**
   * The configured database directory (`Database::$databases_directory`)
   * and the files the adapter can see, in discovery order.
   */
  datatype Fs = Fs(directory: string, entries: seq<(Path, Content)>)

  /**
   * The collaborators of the store: the write adapter (`Filesystem::write`,
   * returning the path it wrote or null) and the row-key extractor
   * (`Table::getAllKeys`).
   */
  datatype Env = Env(
    write: (Path, Document, bool) -> Option<Path>,
    keys: Row -> seq<Key>)

  /** One call made to the filesystem adapter, as the store issued it. */
  datatype Io =
    | Write(target: Path, doc: Document, encrypt: bool, result: Option<Path>)
    | Remove(path: Path)

  /**
   * The boolean the PHP method returns, the filesystem after it, and its
   * adapter calls in order. `raised` marks a call that ended in a
   * `TypeError` instead of returning (then `ok` is false): `create` is
   * declared to return `bool` but returns the write adapter's result, so a
   * failed creation write (null) aborts `create` and everything that called it.
   */
  datatype Outcome = Outcome(ok: bool, fs: Fs, log: seq<Io>, raised: bool)

  predicate Exists(fs: Fs, p: Path) {
    Assoc.HasKey(fs.entries, p)
  }

  function Read(fs: Fs, p: Path): Option<Content> {
    Assoc.Lookup(fs.entries, p)
  }

  /** A write's effect: the returned path now holds the document. */
  function Commit(fs: Fs, result: Option<Path>, doc: Document): (r: Fs)
    ensures r.directory == fs.directory
    ensures result.Some? ==> Read(r, result.value) == Some(Stored(doc))
    ensures forall p :: (result.None? || p != result.value) ==> Read(r, p) == Read(fs, p)
  {
    if result.Some? then fs.(entries := Assoc.Put(fs.entries, result.value, Stored(doc))) else fs
  }

  /** The extensions the directory scan accepts. */
  const Extensions: set<string> := {"yaml", "yml", "encrypted"}

  predicate IsDatabaseFile(p: Path) {
    Extension(p).Some? && Extension(p).value in Extensions
  }

  /** A file stands for `name` when its pathinfo filename is `name`, `name.yaml` or `name.yml`. */
  predicate Matches(p: Path, name: string) {
    var f := Filename(p);
    f == name || f == name + ".yaml" || f == name + ".yml"
  }

  /** The configured directory with trailing `*` and then trailing `/` trimmed. */
  function Root(directory: string): (r: string)
    ensures var t := TrimRight(directory, '*');
      && r <= t
      && forall i :: |r| <= i < |t| ==> t[i] == '/'
    ensures r <= directory
    ensures |r| == 0 || r[|r| - 1] != '/'
    ensures forall i :: |r| <= i < |directory| ==> directory[i] == '/' || directory[i] == '*'
  {
    TrimRight(TrimRight(directory, '*'), '/')
  }

  /**
   * What `files()` asks the adapter for: a database file directly inside the
   * configured directory, the glob being `*` in `Root(directory)`.
   */
  predicate Scanned(directory: string, p: Path) {
    InDirectory(Root(directory), p) && IsDatabaseFile(p)
  }

  /** The files the directory scan finds, in discovery order. */
  function Discover(directory: string, entries: seq<(Path, Content)>): seq<Path> {
    if |entries| == 0 then []
    else (if Scanned(directory, entries[0].0) then [entries[0].0] else []) + Discover(directory, entries[1..])
  }

  /** The scan finds exactly the database files directly inside the directory. */
  lemma {:induction false} DiscoverSpec(directory: string, entries: seq<(Path, Content)>)
    ensures forall p :: p in Discover(directory, entries) <==> Assoc.HasKey(entries, p) && Scanned(directory, p)
  {
    if |entries| > 0 {
      DiscoverSpec(directory, entries[1..]);
      assert forall p :: Assoc.HasKey(entries, p) <==> entries[0].0 == p || Assoc.HasKey(entries[1..], p) by {
        forall p | Assoc.HasKey(entries, p)
          ensures entries[0].0 == p || Assoc.HasKey(entries[1..], p)
        {
          var i :| 0 <= i < |entries| && entries[i].0 == p;
          if i > 0 {
            assert entries[1..][i - 1].0 == p;
          }
        }
        forall p | Assoc.HasKey(entries[1..], p)
          ensures Assoc.HasKey(entries, p)
        {
          var i :| 0 <= i < |entries[1..]| && entries[1..][i].0 == p;
          assert entries[i + 1].0 == p;
        }
      }
    }
  }

  /** `files()`: the database files of the directory, in discovery order. */
  function Files(fs: Fs): (r: seq<Path>)
    ensures forall p :: p in r ==> Exists(fs, p) && Scanned(fs.directory, p)
  {
    DiscoverSpec(fs.directory, fs.entries);
    Discover(fs.directory, fs.entries)
  }

  /** The first path, in discovery order, that stands for `name` (the loop of `file`). */
  function Resolve(paths: seq<Path>, name: string): Option<Path> {
    Seqs.FirstWhere(paths, p => Matches(p, name))
  }

  /** `Resolve` finds the first matching path, and finds none only when no path matches. */
  lemma ResolveSpec(paths: seq<Path>, name: string)
    ensures Resolve(paths, name).None? <==> forall i :: 0 <= i < |paths| ==> !Matches(paths[i], name)
    ensures Resolve(paths, name).Some? ==>
      exists i :: 0 <= i < |paths| && paths[i] == Resolve(paths, name).value && Matches(paths[i], name)
        && forall i' :: 0 <= i' < i ==> !Matches(paths[i'], name)
  {
  }

  /** `file($db_name)`: the file backing `name`, if any. */
  function File(fs: Fs, name: string): (r: Option<Path>)
    ensures r.Some? ==> r.value in Files(fs) && Matches(r.value, name)
  {
    ResolveSpec(Files(fs), name);
    Resolve(Files(fs), name)
  }

  /** `file` returns a discovered path standing for the name, and null only when none does. */
  lemma FileSpec(fs: Fs, name: string)
    ensures File(fs, name).Some? ==>
      File(fs, name).value in Files(fs) && Exists(fs, File(fs, name).value) && Matches(File(fs, name).value, name)
    ensures File(fs, name).None? <==> forall p :: p in Files(fs) ==> !Matches(p, name)
  {
    ResolveSpec(Files(fs), name);
    DiscoverSpec(fs.directory, fs.entries);
  }

  /** What `get` makes of a file's content. */
  function Decode(c: Option<Content>): Document {
    match c
    case Some(Stored(doc)) => doc
    case Some(EmptyText) => EmptyDocument
    case _ => Default
  }

  /**
   * `get($db_name)`: null when no file backs the name; otherwise the stored
   * document, `[]` for an empty payload and the default document for a
   * missing one.
   */
  function Get(fs: Fs, name: string): (r: Option<Document>)
    ensures r.None? <==> File(fs, name).None?
    ensures File(fs, name).Some? ==>
      match Read(fs, File(fs, name).value)
      case Some(Stored(doc)) => r == Some(doc)
      case Some(EmptyText) => r == Some(Document(Config(None, []), []))
      case _ => r == Some(Document(Config(Some(false), []), []))
  {
    match File(fs, name)
    case None => None
    case Some(p) => Some(Decode(Read(fs, p)))
  }

  /**
   * `rows($db_name)`: the rows of the stored document; none when the name
   * does not resolve or the file holds no decoded document.
   */
  function Rows(fs: Fs, name: string): (r: seq<Row>)
    ensures File(fs, name).None? ==> r == []
    ensures File(fs, name).Some? ==>
      match Read(fs, File(fs, name).value)
      case Some(Stored(doc)) => r == doc.rows
      case _ => r == []
  {
    match Get(fs, name)
    case None => []
    case Some(doc) => doc.rows
  }

  /**
   * `config($db_name)`: the configuration of the stored document; an empty
   * one when the name does not resolve or the payload is empty, and the
   * default (flag false, no model) for an unreadable file or a null payload.
   */
  function StoredConfig(fs: Fs, name: string): (c: Config)
    ensures File(fs, name).None? ==> c == Config(None, [])
    ensures File(fs, name).Some? ==>
      match Read(fs, File(fs, name).value)
      case Some(Stored(doc)) => c == doc.config
      case Some(EmptyText) => c == Config(None, [])
      case _ => c == Config(Some(false), [])
  {
    match Get(fs, name)
    case None => Config(None, [])
    case Some(doc) => doc.config
  }

  /** The path `create` writes to. */
  function CreationPath(directory: string, name: string, encrypted: bool): Path {
    Root(directory) + "/" + name + ".yaml" + (if encrypted then ".encrypted" else "")
  }

  /**
   * A database created under a name without slashes is found by the
   * directory scan and resolves back to that name; its extension records
   * whether it is encrypted.
   */
  lemma CreationPathResolves(directory: string, name: string, encrypted: bool)
    requires '/' !in name
    ensures Scanned(directory, CreationPath(directory, name, encrypted))
    ensures Matches(CreationPath(directory, name, encrypted), name)
    ensures Extension(CreationPath(directory, name, encrypted)) == Some(if encrypted then "encrypted" else "yaml")
  {
    var root := Root(directory);
    assert InDirectory(root, CreationPath(directory, name, encrypted)) by {
      var b := name + ".yaml" + (if encrypted then ".encrypted" else "");
      assert CreationPath(directory, name, encrypted) == root + "/" + b;
      InDirectoryAppend(root, b);
    }
    if encrypted {
      assert CreationPath(directory, name, encrypted) == root + "/" + (name + ".yaml") + "." + "encrypted";
      SplitExtension(root, name + ".yaml", "encrypted");
    } else {
      assert CreationPath(directory, name, encrypted) == root + "/" + name + "." + "yaml";
      SplitExtension(root, name, "yaml");
    }
  }

  /**
   * `create($db_name, $model, $encrypted)`: refuses a name that already
   * resolves; otherwise writes a skeleton document with the given model and
   * no rows to the creation path.
   */
  function Create(env: Env, fs: Fs, name: string, model: seq<Key>, encrypted: bool): (o: Outcome)
    ensures File(fs, name).Some? ==> o == Outcome(false, fs, [], false)
    ensures File(fs, name).None? ==>
      && |o.log| == 1
      && o.log[0].Write?
      && o.log[0].target == CreationPath(fs.directory, name, encrypted)
      && o.log[0].doc == Document(Config(Some(encrypted), model), [])
      && o.log[0].encrypt == encrypted
      && o.log[0].result == env.write(o.log[0].target, o.log[0].doc, encrypted)
      && (o.ok <==> o.log[0].result.Some?)
      && (o.raised <==> o.log[0].result.None?)
      && o.fs == Commit(fs, o.log[0].result, o.log[0].doc)
  {
    if File(fs, name).Some? then Outcome(false, fs, [], false)
    else
      var path := CreationPath(fs.directory, name, encrypted);
      var skeleton := Document(Config(Some(encrypted), model), []);
      var result := env.write(path, skeleton, encrypted);
      // `return $result;` from a `bool` method: a null result raises a `TypeError`.
      Outcome(result.Some?, Commit(fs, result, skeleton), [Write(path, skeleton, encrypted, result)], result.None?)
  }

  /** The last write in an adapter log. */
  function LastWrite(log: seq<Io>): (r: Option<Io>)
    ensures r.Some? ==> r.value.Write?
  {
    if |log| == 0 then None
    else if log[|log| - 1].Write? then Some(log[|log| - 1])
    else LastWrite(log[..|log| - 1])
  }

  /** The last write is a write of the log, and there is none only when the log holds no write. */
  lemma {:induction false} LastWriteSpec(log: seq<Io>)
    ensures LastWrite(log).Some? ==> LastWrite(log).value.Write? && LastWrite(log).value in log
    ensures LastWrite(log).None? <==> forall i :: 0 <= i < |log| ==> !log[i].Write?
  {
    if |log| > 0 && !log[|log| - 1].Write? {
      LastWriteSpec(log[..|log| - 1]);
      assert forall i :: 0 <= i < |log| - 1 ==> log[i] == log[..|log| - 1][i];
    }
  }

  /** Calls appended after a log that ends in a write keep that write the last one. */
  lemma {:induction false} LastWriteAppend(a: seq<Io>, b: seq<Io>)
    requires LastWrite(b).Some?
    ensures LastWrite(a + b) == LastWrite(b)
    decreases |b|
  {
    var n := |b| - 1;
    assert (a + b)[..|a + b| - 1] == a + b[..n];
    if !b[n].Write? {
      LastWriteAppend(a, b[..n]);
    }
  }

  /**
   * The tail of `persist`: write the whole document over `previous`, then,
   * only when the write succeeded at a different path and a retirement was
   * decided, remove `previous`.
   */
  function Replace(created: Outcome, previous: Path, d: Document, encrypt: bool, result: Option<Path>, retire: bool): (o: Outcome)
    requires forall i :: 0 <= i < |created.log| ==> created.log[i].Write?
    ensures created.log <= o.log
    ensures LastWrite(o.log) == Some(Write(previous, d, encrypt, result))
    ensures o.ok <==> result.Some?
    ensures result.Some? ==> Read(o.fs, result.value) == Some(Stored(d))
    ensures o.log[|o.log| - 1].Remove? <==> retire && result.Some? && result.value != previous
    ensures o.log[|o.log| - 1].Remove? ==> o.log[|o.log| - 1].path == previous && !Exists(o.fs, previous)
    ensures !o.log[|o.log| - 1].Remove? ==> o.fs == Commit(created.fs, result, d)
    ensures forall p :: p != previous ==> Read(o.fs, p) == Read(Commit(created.fs, result, d), p)
    ensures forall i :: 0 <= i < |o.log| - 1 ==> o.log[i].Write?
    ensures o.log[|o.log| - 1].Remove? ==> |o.log| >= 2 && o.log[|o.log| - 2] == Write(previous, d, encrypt, result)
    ensures |created.log| < |o.log| <= |created.log| + 2 && o.log[|created.log|] == Write(previous, d, encrypt, result)
  {
    var w := WriteOver(created, previous, d, encrypt, result);
    if result.Some? && retire && result.value != previous then
      var o := Retire(w, previous);
      assert Read(o.fs, result.value) == Read(w.fs, result.value);
      assert o.log[|o.log| - 1] == Remove(previous);
      assert o.log[|o.log| - 2] == w.log[|w.log| - 1];
      assert forall i :: 0 <= i < |o.log| - 1 ==> o.log[i] == w.log[i];
      assert created.log <= w.log <= o.log;
      o
    else
      assert w.log[|w.log| - 1].Write?;
      w
  }

  /** The write of `persist`: the whole document, over `previous`. */
  function WriteOver(created: Outcome, previous: Path, d: Document, encrypt: bool, result: Option<Path>): (w: Outcome)
    requires forall i :: 0 <= i < |created.log| ==> created.log[i].Write?
    ensures w.ok == result.Some? && !w.raised
    ensures w.fs == Commit(created.fs, result, d)
    ensures |w.log| == |created.log| + 1
    ensures created.log <= w.log
    ensures w.log[|w.log| - 1] == Write(previous, d, encrypt, result)
    ensures LastWrite(w.log) == Some(Write(previous, d, encrypt, result))
    ensures forall i :: 0 <= i < |w.log| ==> w.log[i].Write?
  {
    var w := Outcome(result.Some?, Commit(created.fs, result, d), created.log + [Write(previous, d, encrypt, result)], false);
    assert forall i :: 0 <= i < |created.log| ==> w.log[i] == created.log[i];
    w
  }

  /** The removal `persist` appends after a write that moved the document. */
  function Retire(w: Outcome, previous: Path): (o: Outcome)
    ensures o.ok == w.ok && o.raised == w.raised
    ensures o.log == w.log + [Remove(previous)]
    ensures LastWrite(w.log).Some? ==> LastWrite(o.log) == LastWrite(w.log)
    ensures !Exists(o.fs, previous)
    ensures forall p :: p != previous ==> Read(o.fs, p) == Read(w.fs, p)
  {
    var o := Outcome(w.ok, w.fs.(entries := Assoc.Remove(w.fs.entries, previous)), w.log + [Remove(previous)], w.raised);
    assert o.log[..|o.log| - 1] == w.log;
    o
  }

  /**
   * `persist($db_name, $database)`: re-derive the model, default the
   * encryption flag, create the file first when the name does not resolve
   * (a failed creation write aborts), decide whether the file the document
   * came from is to be retired (its stored flag differs from the new one),
   * then write the document over `file($db_name) ?? $db_name`.
   */
  function Persist(env: Env, fs: Fs, name: string, doc: Document): (o: Outcome)
    ensures LastWrite(o.log).Some?
    ensures o.raised ==> File(fs, name).None? && !o.ok && o.fs == fs && |o.log| == 1 && LastWrite(o.log).value.result.None?
    ensures !o.raised ==>
      var w := LastWrite(o.log).value;
      && w.doc == Prepare(env.keys, doc)
      && w.encrypt == doc.config.encrypted.GetOr(false)
      && w.result == env.write(w.target, w.doc, w.encrypt)
      && (File(fs, name).Some? ==> w.target == File(fs, name).value)
      && (o.ok <==> w.result.Some?)
      && (o.ok ==> Read(o.fs, w.result.value) == Some(Stored(Prepare(env.keys, doc))))
    ensures !o.ok ==> forall p :: Exists(fs, p) ==> Exists(o.fs, p)
    ensures File(fs, name).Some? ==> !o.raised && 1 <= |o.log| <= 2 && o.log[0] == LastWrite(o.log).value
  {
    var d := Prepare(env.keys, doc);
    var target := d.config.encrypted.value;
    var resolved := File(fs, name);
    var created := if resolved.None? then Create(env, fs, name, d.config.model, target) else Outcome(false, fs, [], false);
    if created.raised then
      assert resolved.None? && created.log == [created.log[0]];
      created
    else
      assert resolved.None? ==> |created.log| == 1 && created.log[0].Write?;
      // `!==` binds tighter than `??`: a stored flag that is absent differs from any target.
      var retire := resolved.Some? && StoredConfig(fs, name).encrypted != Some(target);
      var previous := File(created.fs, name).GetOr(name);
      assert forall p :: Exists(fs, p) ==> Exists(created.fs, p) by {
        if resolved.None? {
          CommitKeeps(fs, created.log[0].result, created.log[0].doc);
        }
      }
      CommitKeeps(created.fs, env.write(previous, d, target), d);
      assert resolved.Some? ==> created.log == [];
      Replace(created, previous, d, target, env.write(previous, d, target), retire)
  }

  /** Some adapter call of `log` wrote to `p` (the write returned `p`) or removed `p`. */
  ghost predicate Touched(log: seq<Io>, p: Path) {
    exists i :: 0 <= i < |log| && ((log[i].Write? && log[i].result == Some(p)) || (log[i].Remove? && log[i].path == p))
  }

  /**
   * `persist` changes no file behind the adapter's back: a path whose content
   * differs afterwards was returned by one of its writes or removed by its
   * removal. Every other database keeps its file.
   */
  lemma PersistFrame(env: Env, fs: Fs, name: string, doc: Document)
    ensures var o := Persist(env, fs, name, doc);
      forall p :: Read(o.fs, p) != Read(fs, p) ==> Touched(o.log, p)
  {
    var o := Persist(env, fs, name, doc);
    var d := Prepare(env.keys, doc);
    var target := d.config.encrypted.value;
    if !o.raised {
      var created := if File(fs, name).None? then Create(env, fs, name, d.config.model, target) else Outcome(false, fs, [], false);
      var previous := File(created.fs, name).GetOr(name);
      var retire := File(fs, name).Some? && StoredConfig(fs, name).encrypted != Some(target);
      ReplaceFrame(created, previous, d, target, env.write(previous, d, target), retire);
      forall p | Read(created.fs, p) != Read(fs, p)
        ensures Touched(created.log, p)
      {
        assert created.log[0].result == Some(p);
      }
    }
  }

  /**
   * The tail of `persist` changes only what its own calls touch, and keeps
   * the calls made before it.
   */
  lemma ReplaceFrame(created: Outcome, previous: Path, d: Document, encrypt: bool, result: Option<Path>, retire: bool)
    requires forall i :: 0 <= i < |created.log| ==> created.log[i].Write?
    ensures var o := Replace(created, previous, d, encrypt, result, retire);
      forall p :: Read(o.fs, p) != Read(created.fs, p) || Touched(created.log, p) ==> Touched(o.log, p)
  {
    var o := Replace(created, previous, d, encrypt, result, retire);
    var n := |o.log|;
    forall p | Read(o.fs, p) != Read(created.fs, p) || Touched(created.log, p)
      ensures Touched(o.log, p)
    {
      if Touched(created.log, p) {
        var i :| 0 <= i < |created.log| && created.log[i].Write? && created.log[i].result == Some(p);
        assert o.log[i] == created.log[i];
      } else if o.log[n - 1].Remove? && p == previous {
        assert o.log[n - 1].path == p;
      } else {
        assert o.log[|created.log|] == Write(previous, d, encrypt, result);
      }
    }
  }

  /** A write never takes a file away. */
  lemma CommitKeeps(fs: Fs, result: Option<Path>, doc: Document)
    ensures forall p :: Exists(fs, p) ==> Exists(Commit(fs, result, doc), p)
  {
    forall p | Exists(fs, p)
      ensures Exists(Commit(fs, result, doc), p)
    {
      assert Read(fs, p).Some?;
    }
  }

  /**
   * When the name does not resolve, the creation write comes first. If it
   * fails, `create` raises and nothing else happens; otherwise the document
   * is written next, over whatever the name resolves to after the creation
   * (the name itself when it still resolves to nothing), and nothing is removed.
   */
  lemma PersistCreatesFirst(env: Env, fs: Fs, name: string, doc: Document)
    requires File(fs, name).None?
    ensures var o := Persist(env, fs, name, doc);
      var flag := doc.config.encrypted.GetOr(false);
      && o.log[0].Write?
      && o.log[0].target == CreationPath(fs.directory, name, flag)
      && o.log[0].doc == Document(Config(Some(flag), Prepare(env.keys, doc).config.model), [])
      && o.log[0].encrypt == flag
      && o.log[0].result == env.write(o.log[0].target, o.log[0].doc, flag)
      && (o.raised <==> o.log[0].result.None?)
      && (o.raised ==> |o.log| == 1 && o.fs == fs)
      && (!o.raised ==>
            var next := File(Commit(fs, o.log[0].result, o.log[0].doc), name).GetOr(name);
            && |o.log| == 2
            && o.log[1] == Write(next, Prepare(env.keys, doc), flag, env.write(next, Prepare(env.keys, doc), flag)))
  {
  }

  /**
   * A slash-free name whose creation write lands on the creation path has
   * its document written over that very file.
   */
  lemma PersistWritesOverCreated(env: Env, fs: Fs, name: string, doc: Document)
    requires File(fs, name).None? && '/' !in name
    requires var flag := doc.config.encrypted.GetOr(false);
      var path := CreationPath(fs.directory, name, flag);
      env.write(path, Document(Config(Some(flag), Prepare(env.keys, doc).config.model), []), flag) == Some(path)
    ensures var o := Persist(env, fs, name, doc);
      !o.raised && |o.log| == 2 && o.log[1].target == CreationPath(fs.directory, name, doc.config.encrypted.GetOr(false))
  {
    var flag := doc.config.encrypted.GetOr(false);
    var path := CreationPath(fs.directory, name, flag);
    var o := Persist(env, fs, name, doc);
    PersistCreatesFirst(env, fs, name, doc);
    var created := Commit(fs, o.log[0].result, o.log[0].doc);
    CreationPathResolves(fs.directory, name, flag);
    FilesAfterCommit(fs, o.log[0].result, o.log[0].doc);
    FileSpec(fs, name);
    FileSpec(created, name);
    DiscoverSpec(created.directory, created.entries);
    assert Read(created, path).Some?;
    assert path in Files(created);
  }

  /**
   * The old file is removed exactly when the name resolved, the stored flag
   * differs from the target, and the write succeeded at a different path.
   */
  lemma PersistRetirement(env: Env, fs: Fs, name: string, doc: Document)
    ensures var o := Persist(env, fs, name, doc);
      var w := LastWrite(o.log).value;
      var target := doc.config.encrypted.GetOr(false);
      && (o.log[|o.log| - 1].Remove? <==>
            && File(fs, name).Some?
            && StoredConfig(fs, name).encrypted != Some(target)
            && w.result.Some?
            && w.result.value != File(fs, name).value)
      && (o.log[|o.log| - 1].Remove? ==>
            o.log[|o.log| - 1].path == File(fs, name).value && !Exists(o.fs, File(fs, name).value))
  {
    var o := Persist(env, fs, name, doc);
    var d := Prepare(env.keys, doc);
    var target := d.config.encrypted.value;
    if File(fs, name).None? {
      if !o.raised {
        var created := Create(env, fs, name, d.config.model, target);
        var previous := File(created.fs, name).GetOr(name);
        assert o == Replace(created, previous, d, target, env.write(previous, d, target), false);
      }
    } else {
      var previous := File(fs, name).value;
      var retire := StoredConfig(fs, name).encrypted != Some(target);
      assert o == Replace(Outcome(false, fs, [], false), previous, d, target, env.write(previous, d, target), retire);
    }
  }

  /**
   * The only removal `persist` issues is its last call, right after a
   * successful write over the removed path that landed elsewhere.
   */
  lemma PersistRemovesLast(env: Env, fs: Fs, name: string, doc: Document)
    ensures var o := Persist(env, fs, name, doc);
      forall i :: 0 <= i < |o.log| && o.log[i].Remove? ==>
        && i == |o.log| - 1
        && i > 0
        && o.log[i - 1].Write?
        && o.log[i - 1].target == o.log[i].path
        && o.log[i - 1].result.Some?
        && o.log[i - 1].result.value != o.log[i].path
  {
  }

  /**
   * At least one copy survives: the file that backed the name is still
   * there, or the write succeeded and its path holds the new document.
   */
  lemma PersistKeepsACopy(env: Env, fs: Fs, name: string, doc: Document)
    ensures var o := Persist(env, fs, name, doc);
      var w := LastWrite(o.log).value;
      File(fs, name).Some? ==>
        || Exists(o.fs, File(fs, name).value)
        || (w.result.Some? && Read(o.fs, w.result.value) == Some(Stored(Prepare(env.keys, doc))))
  {
    FileSpec(fs, name);
  }

  /**
   * Reading back: when the name resolves to the path the write returned,
   * `get` yields the prepared document, rows unchanged and model re-derived.
   */
  lemma PersistRoundTrip(env: Env, fs: Fs, name: string, doc: Document)
    ensures var o := Persist(env, fs, name, doc);
      var w := LastWrite(o.log).value;
      w.result.Some? && File(o.fs, name) == w.result ==>
        && Get(o.fs, name) == Some(Prepare(env.keys, doc))
        && Rows(o.fs, name) == doc.rows
  {
    var o := Persist(env, fs, name, doc);
    var w := LastWrite(o.log).value;
    var d := Prepare(env.keys, doc);
    if w.result.Some? && File(o.fs, name) == w.result {
      assert !o.raised && o.ok;
      var p := w.result.value;
      assert Read(o.fs, p) == Some(Stored(d));
      StoredReadsBack(o.fs, name, d);
    }
  }

  /** A name resolving to a file holding a stored document reads back as that document. */
  lemma StoredReadsBack(fs: Fs, name: string, d: Document)
    ensures File(fs, name).Some? && Read(fs, File(fs, name).value) == Some(Stored(d)) ==>
      Get(fs, name) == Some(d) && Rows(fs, name) == d.rows
  {
  }

  /** Files after a commit are the old files plus, possibly, the written path. */
  lemma FilesAfterCommit(fs: Fs, result: Option<Path>, doc: Document)
    ensures forall p :: p in Files(Commit(fs, result, doc)) ==> p in Files(fs) || result == Some(p)
  {
    DiscoverSpec(fs.directory, fs.entries);
    DiscoverSpec(fs.directory, Commit(fs, result, doc).entries);
    forall p | p in Files(Commit(fs, result, doc)) && result != Some(p)
      ensures p in Files(fs)
    {
      assert Read(Commit(fs, result, doc), p) == Read(fs, p);
    }
  }

  /**
   * A database made by `create` (the name resolved nowhere before) reads
   * back as the skeleton that was written, when the name resolves at all.
   */
  lemma CreateReadsBack(env: Env, fs: Fs, name: string, model: seq<Key>, encrypted: bool)
    requires File(fs, name).None?
    ensures var o := Create(env, fs, name, model, encrypted);
      Get(o.fs, name).None? || Get(o.fs, name) == Some(Document(Config(Some(encrypted), model), []))
  {
    var o := Create(env, fs, name, model, encrypted);
    FilesAfterCommit(fs, o.log[0].result, o.log[0].doc);
    FileSpec(fs, name);
    FileSpec(o.fs, name);
  }

  /**
   * `delete($db_name)`: removes the file backing the name; false when none
   * does. (An `unlink` failure is not modelled.)
   */
  function DeleteDatabase(fs: Fs, name: string): (o: Outcome)
    ensures o.ok <==> File(fs, name).Some?
    ensures !o.ok ==> o.fs == fs && o.log == []
    ensures o.ok ==>
      && o.log == [Remove(File(fs, name).value)]
      && !Exists(o.fs, File(fs, name).value)
      && forall p :: p != File(fs, name).value ==> Read(o.fs, p) == Read(fs, p)
  {
    match File(fs, name)
    case None => Outcome(false, fs, [], false)
    case Some(p) => Outcome(true, fs.(entries := Assoc.Remove(fs.entries, p)), [Remove(p)], false)
  }

  /** Files after a removal are the old files without the removed path. */
  lemma FilesAfterRemove(fs: Fs, p: Path)
    ensures forall p' :: p' in Files(fs.(entries := Assoc.Remove(fs.entries, p))) ==> p' in Files(fs) && p' != p
  {
    var rest := fs.(entries := Assoc.Remove(fs.entries, p));
    DiscoverSpec(fs.directory, fs.entries);
    DiscoverSpec(rest.directory, rest.entries);
    forall p' | p' in Files(rest)
      ensures p' in Files(fs) && p' != p
    {
      assert Exists(rest, p');
      assert Read(rest, p') == Read(fs, p');
    }
  }

  /**
   * When a single file stands for the name (no two files claim it), deleting
   * the database leaves the name unresolvable.
   */
  lemma DeleteUnresolves(fs: Fs, name: string)
    requires forall p, p' :: p in Files(fs) && p' in Files(fs) && Matches(p, name) && Matches(p', name) ==> p == p'
    ensures File(DeleteDatabase(fs, name).fs, name).None?
  {
    FileSpec(fs, name);
    FileSpec(DeleteDatabase(fs, name).fs, name);
    if File(fs, name).Some? {
      FilesAfterRemove(fs, File(fs, name).value);
    }
  }

  predicate EndsWith(s: string, suffix: string) {
    |suffix| <= |s| && s[|s| - |suffix|..] == suffix
  }

  /** The name `list` reports for a file: its pathinfo filename without a trailing `.yaml` or `.yml`. */
  function ListName(p: Path): (n: string)
    ensures Matches(p, n)
  {
    var f := Filename(p);
    if EndsWith(f, ".yaml") then
      assert f == f[..|f| - 5] + ".yaml";
      f[..|f| - 5]
    else if EndsWith(f, ".yml") then
      assert f == f[..|f| - 4] + ".yml";
      f[..|f| - 4]
    else f
  }

  /**
   * `list()`, corrected: one name per discovered file, in discovery order,
   * each of which resolves.
   */
  function List(fs: Fs): (r: seq<string>)
    ensures |r| == |Files(fs)|
    ensures forall i :: 0 <= i < |r| ==> Matches(Files(fs)[i], r[i])
    ensures forall i :: 0 <= i < |r| ==> File(fs, r[i]).Some?
  {
    var files := Files(fs);
    var r := seq(|files|, i requires 0 <= i < |files| => ListName(files[i]));
    forall i | 0 <= i < |r|
      ensures File(fs, r[i]).Some?
    {
      FileSpec(fs, r[i]);
    }
    r
  }

  /** The name `list` reports as written: every `.yaml`, then every `.yml`, deleted from the filename. */
  function ListNameAsWritten(p: Path): (n: string)
    ensures |n| <= |Filename(p)|
    ensures !Occurs(Filename(p), ".yaml") && !Occurs(Filename(p), ".yml") ==> n == Filename(p)
  {
    RemoveAll(RemoveAll(Filename(p), ".yaml"), ".yml")
  }

  /** `list()` as written. */
  function ListAsWritten(fs: Fs): (r: seq<string>)
    ensures |r| == |Files(fs)|
    ensures forall i :: 0 <= i < |r| ==> r[i] == ListNameAsWritten(Files(fs)[i])
  {
    var files := Files(fs);
    seq(|files|, i requires 0 <= i < |files| => ListNameAsWritten(files[i]))
  }

  /** A directory `db` holding the single file `db/a.yamlb.yml`. */
  const SampleFs := Fs("db", [("db/a.yamlb.yml", EmptyText)])

  /**
   * As written, `list` can report a name that resolves to nothing: the file
   * `db/a.yamlb.yml` is listed as `ab`.
   */
  lemma ListAsWrittenLosesName()
    ensures ListAsWritten(SampleFs) == ["ab"]
    ensures File(SampleFs, "ab").None?
  {
    SampleListed();
    SampleUnresolved();
  }

  /** The sample directory is listed as `ab`. */
  lemma SampleListed()
    ensures ListAsWritten(SampleFs) == ["ab"]
  {
    var p := "db/a.yamlb.yml";
    SampleShape();
    SampleFiles();
    SampleStrip();
    assert RemoveAll("ab", ".yml") == "ab";
    assert ListNameAsWritten(p) == "ab";
    assert ListAsWritten(SampleFs) == [ListNameAsWritten(p)];
  }

  /** In the sample directory no file stands for `ab`. */
  lemma SampleUnresolved()
    ensures File(SampleFs, "ab").None?
  {
    var p := "db/a.yamlb.yml";
    SampleShape();
    SampleFiles();
    assert !Matches(p, "ab") by {
      assert "a.yamlb" != "ab" && "a.yamlb" != "ab.yml";
      assert "a.yamlb"[1] != "ab.yaml"[1];
    }
    ResolveSpec(Files(SampleFs), "ab");
  }

  /** The sample file is a database file directly inside `db`, whose pathinfo filename is `a.yamlb`. */
  lemma SampleShape()
    ensures Filename("db/a.yamlb.yml") == "a.yamlb"
    ensures Scanned("db", "db/a.yamlb.yml")
  {
    var b := "a.yamlb.yml";
    SampleBasename();
    SampleLastDot();
    SampleRoot();
    assert b[..7] == "a.yamlb" && b[8..] == "yml";
    assert "yml" in Extensions;
    InDirectoryAppend("db", b);
  }

  /** The configured directory `db` needs no trimming. */
  lemma SampleRoot()
    ensures Root("db") == "db"
  {
    var t := TrimRight("db", '*');
    assert "db"[1] != '*' && "db"[0] != '*';
    assert t == "db";
    assert "db"[1] != '/';
  }

  /** The sample file's base name is what follows `db/`. */
  lemma SampleBasename()
    ensures Basename("db/a.yamlb.yml") == "a.yamlb.yml"
  {
    var b := "a.yamlb.yml";
    assert '/' !in b by {
      assert forall i :: 0 <= i < |b| ==> b[i] != '/';
    }
    assert "db/a.yamlb.yml" == "db" + "/" + b;
    BasenameAfterSlash("db", b);
  }

  /** The last dot of the sample base name is the one before `yml`. */
  lemma SampleLastDot()
    ensures LastIndex("a.yamlb.yml", '.') == Some(7)
  {
    var b := "a.yamlb.yml";
    assert b[8..] == "yml";
    LastIndexUnique(b, '.', 7);
  }

  /** The sample directory lists exactly its one file. */
  lemma SampleFiles()
    ensures Files(SampleFs) == ["db/a.yamlb.yml"]
  {
    SampleShape();
    assert SampleFs.entries[1..] == [];
    assert Discover("db", SampleFs.entries[1..]) == [];
  }

  /** `str_replace` removes the `.yaml` in the middle of `a.yamlb`. */
  lemma SampleStrip()
    ensures RemoveAll("a.yamlb", ".yaml") == "ab"
  {
    assert "a.yamlb"[..5][0] != ".yaml"[0];
    assert "a.yamlb"[1..] == ".yamlb";
    assert ".yamlb"[..5] == ".yaml";
    assert ".yamlb"[5..] == "b";
  }
}

=== FILE: values.dfy ===
/** Decoded record values and the field assignment `update` applies to rows. */
module Values {
  import opened Wrappers
  import Assoc

  /** A field name. Integer keys of PHP arrays are not modelled. */
  type Key = string

  /** A value as the YAML decoder hands it over; floats are left out. */
  datatype Value =
    | Null
    | Bool(b: bool)
    | Int(i: int)
    | Str(s: string)
    | List(items: seq<Value>)
    | Mapping(entries: seq<(Key, Value)>)

  /** A record: its fields in stored order. */
  type Row = seq<(Key, Value)>

  /**
   * The inner loop of `update`: every parameter assigned to the row in
   * order, `$row[$key] = $value`.
   */
  function Patch(row: Row, params: Row): (r: Row)
    decreases |params|
  {
    if |params| == 0 then row
    else
      var n := |params| - 1;
      Assoc.Put(Patch(row, params[..n]), params[n].0, params[n].1)
  }

  /**
   * After patching, every parameter key holds the parameter's value and
   * every other field keeps the value it had; no other field appears.
   */
  lemma {:induction false} PatchLookup(row: Row, params: Row, k: Key)
    requires Assoc.DistinctKeys(params)
    ensures Assoc.Lookup(Patch(row, params), k) ==
      if Assoc.HasKey(params, k) then Assoc.Lookup(params, k) else Assoc.Lookup(row, k)
    decreases |params|
  {
    if |params| > 0 {
      var n := |params| - 1;
      var pre := params[..n];
      assert params == pre + [params[n]];
      Assoc.LookupSnoc(pre, params[n].0, params[n].1, k);
      if k != params[n].0 {
        PatchLookup(row, pre, k);
      }
    }
  }

  /** Patching never removes a field and reorders none: old fields stay in front. */
  lemma {:induction false} PatchKeepsFieldOrder(row: Row, params: Row)
    ensures Assoc.Keys(row) <= Assoc.Keys(Patch(row, params))
    decreases |params|
  {
    if |params| > 0 {
      var n := |params| - 1;
      PatchKeepsFieldOrder(row, params[..n]);
    }
  }
}

=== FILE: wrappers.dfy ===
/** The optional values the store returns where the PHP code returns `null`. */
module Wrappers {

  datatype Option<+T> = None | Some(value: T) {

    /** The wrapped value, or `default` when there is none (PHP's `??`). */
    function GetOr(default: T): T {
      match this
      case Some(v) => v
      case None => default
    }
  }
}
